=== FILE: README.md ===
# pme: the alarm/idle bookkeeping, modelled in Dafny

pme ("protect my eyes") is a Wayland background process. It shows a
notification, and optionally runs a command, once the user has been at the
keyboard for `alarm_seconds`. Idle time reported by the compositor
(`ext_idle_notify_v1`) does not count. This project models the bookkeeping in
`main.c` that decides when to notify, and proves properties of that model.

The bookkeeping state is `time_left`, `idle_timestamp`, `inhibited` and the one
pending alarm owned by POSIX.1 `alarm()`. The handlers change it as follows:

- `handle_idled` records the time the seat went idle. It does not stop the
  countdown.
- `handle_resumed` adds the idle duration to `time_left` as a credit.
- SIGALRM pays a credit back by re-arming for it. It notifies only when no
  credit is held.
- SIGUSR1 restarts the countdown.
- SIGUSR2 toggles a manual pause.

Every handler runs to completion, one at a time. The model therefore has one
pure transition per handler (module `Coordinator`). A run over a sequence of
timestamped events is a fold of those transitions (module `Trace`). The clock
is a parameter `now`, in place of `time(NULL)`.

The central result is `Accounting.Conservation`. Define the owed time as:
the time until the pending alarm, plus the unpaid credit, plus the idle time
of an open idle session. `handle_idled`, `handle_resumed` and a SIGALRM
delivered when its alarm is due conserve the owed time. Only active time
lowers it, and each notification raises it by `alarm_seconds`. The operator
signals are not covered: SIGUSR1 and leaving the pause start a fresh
countdown (`Accounting.FreshCountdown`), and entering the pause leaves no alarm
pending. A fresh countdown owes exactly `alarm_seconds` when no idle session
is open. Otherwise SIGUSR1 and a notification leave the session's idle time
owed on top, because only leaving the pause restarts `idle_timestamp`.
`Accounting.ActiveTimeBetweenAlerts` follows from it. Take a fresh countdown
followed by a run of idle events and due alarms, with no SIGUSR1 or SIGUSR2.
Up to the next notification, exactly `alarm_seconds` of active time pass,
provided no idle session is open at either end.

Modules:

- `CTypes` (ctypes.dfy): `unsigned int`/`unsigned long` ranges and the
  modulo-2^32 conversion.
- `Alarm` (alarm.dfy): the process alarm clock.
- `Coordinator` (coordinator.dfy): the state and one transition per handler.
- `Trace` (trace.dfy): event dispatch and runs.
- `Accounting` (accounting.dfy): owed time and active time.
- `Log` (log.dfy): level filtering of the logger.
- `Args` (args.dfy): `parse_args` and its numeric checks.
- `Seat` (seat.dfy): seat discovery order and selection.
- `Daemon` (daemon.dfy): options, then the event loop.

Behaviour of the code that a user might not expect, each proved of the model:

- `handle_idled` does not cancel the pending alarm. A countdown that runs out
  during an idle session notifies an absent user
  (`Accounting.AlertWhileIdle`).
- `-t 0` is accepted. The first alarm is never armed, and every arming of
  `alarm_seconds` cancels instead, so the daemon never notifies unless another
  process sends it SIGALRM (`Daemon.ZeroIntervalNeverNotifies`). Such a
  SIGALRM notifies at once when no idle credit is held. When credit is held,
  it arms `alarm(time_left)`, and that alarm notifies later
  (`Daemon.ForeignAlarmWithCreditNotifies`).
- SIGUSR1 arms a fresh countdown even while inhibited, and that countdown
  later notifies (`Trace.ResetWhileInhibitedArms`).
- SIGUSR1 does not restart `idle_timestamp`. Idle time from before the reset
  is credited at the next resume, so the next notification can need more than
  `alarm_seconds` of active time after the reset
  (`Accounting.ResetKeepsIdleCredit`).
- Leaving the pause (SIGUSR2) discards the credit and starts a full
  `alarm_seconds` countdown. It does not resume the remainder held when the
  pause began (`Coordinator.OnToggleInhibit`, `Trace.DoubleToggle`).
- Pausing calls `alarm(0)`, which cannot withdraw a SIGALRM the kernel has
  already generated. If SIGUSR2 is dispatched first in the instant the alarm
  is due, the SIGALRM handler still notifies and re-arms while paused. From
  then on the pause has no effect: the process notifies every
  `alarm_seconds` (`Trace.AlarmRacesInhibit`). The next SIGUSR2 does not stop
  this. `inhibited` is already set, so that SIGUSR2 un-pauses and re-arms.
  Only a second SIGUSR2 pauses again.
- `handle_resumed` stores `time_left + (now - idle_timestamp)` into an
  `unsigned int` without any clamp. A clock that went backwards makes the
  value wrap modulo 2^32 (`Coordinator.OnResumed`).

## Model

| member | source | states |
|---|---|---|
| CTypes.ToUint | main.c:274 | storing a `long` into `unsigned int` keeps values that fit, and otherwise yields the unique value in range congruent modulo 2^32 |
| Alarm.Register | main.c:114-120 | `alarm(0)` leaves no expiry at any time; `alarm(n)` with n > 0 makes the alarm due at `now + n`, with `n` seconds remaining |
| Alarm.RegisterReplaces | main.c:114-120 | the pending alarm before a call has no influence on the result, and of two arming calls only the last counts: at most one alarm is ever pending |
| Alarm.FiresExactlyOnce | main.c:114-120 | an alarm armed for n seconds is due at `now + n` and at no other time, and never when n is 0 |
| Coordinator.Init | main.c:48-50 | the loop starts with no credit, an idle timestamp of 0, not inhibited, nothing shown, and the first `alarm_seconds` alarm registered (main.c:356) |
| Coordinator.OnIdled | main.c:267-270 | idling only records the timestamp: credit, pending alarm, inhibition and notifications are untouched |
| Coordinator.OnResumed | main.c:272-276 | resuming adds the idle duration to the credit, exactly when no wrap occurs and modulo 2^32 always; nothing else changes |
| Coordinator.OnReset | main.c:184-191 | SIGUSR1 clears the credit and leaves exactly one alarm, at `now + alarm_seconds` (none when that is 0), whatever was pending; inhibition is kept |
| Coordinator.OnToggleInhibit | main.c:192-206 | SIGUSR2 always flips `inhibited`; pausing cancels the alarm and keeps the credit, unpausing clears the credit, restarts the idle timestamp and arms `alarm_seconds` |
| Coordinator.OnAlarm | main.c:207-220 | SIGALRM notifies iff there is no credit, runs the command iff one is configured and it notifies, re-arms for the old credit or for `alarm_seconds`, and always leaves the credit at 0 |
| Coordinator.OnTerminate | main.c:179-183 | SIGINT/SIGTERM end the process without showing or running anything |
| Trace.Step | main.c:177-223 | a single dispatched event adds at most one notification, and adds one iff it is SIGALRM reaching a running process without credit; a terminated process does not change |
| Trace.Run | main.c:365-367 | the event loop never takes back a notification or a command, never revives a terminated process, and changes `inhibited` only through SIGUSR2 |
| Trace.AlertsOnlyFromAlarms | main.c:211-215 | over any run, notifications never decrease and grow by at most the number of SIGALRMs; commands run exactly once per notification when configured, never otherwise |
| Trace.TerminationIsFinal | main.c:128-134 | after termination no event changes the state |
| Trace.InhibitedStaysQuiet | main.c:192-206 | once inhibited with nothing pending, no run without SIGUSR1/SIGUSR2 and with kernel-timed alarms shows a notification or arms an alarm |
| Trace.ZeroIntervalNeverAlerts | main.c:114-120 | with `alarm_seconds == 0` and nothing pending, no run with kernel-timed alarms ever notifies or leaves an alarm pending |
| Trace.DoubleToggle | main.c:192-206 | two SIGUSR2 from un-inhibited end un-inhibited, with no credit, the idle timestamp at the second toggle and a fresh `alarm_seconds` alarm (none with `-t 0`) |
| Trace.CreditPaidOnce | main.c:216-218 | a SIGALRM with credit notifies nothing and re-arms for exactly the credit; the next SIGALRM without an intervening resume notifies |
| Trace.ResetWhileInhibitedArms | main.c:184-191 | SIGUSR1 while inhibited keeps the pause but arms a countdown whose expiry notifies |
| Trace.AlarmRacesInhibit | main.c:192-220 | SIGUSR2 and a SIGALRM already generated at the deadline, dispatched in that order, end paused with one more notification and a new alarm; such a run is not `Timely`, and the next due alarm notifies again while paused |
| Accounting.StepConserves | main.c:267-276 | each idle event or due alarm keeps owed time plus elapsed active time constant, adding `alarm_seconds` on a notification, and keeps the credit free of wrap-around |
| Accounting.Conservation | main.c:207-220 | over an admissible run, final owed time plus active time equals initial owed time plus `alarm_seconds` per notification |
| Accounting.FreshCountdown | main.c:184-220 | entering the loop, SIGUSR1, un-pausing and a notification each leave no credit and arm `alarm_seconds`; with no idle session open exactly `alarm_seconds` is owed, with one open un-pausing owes `alarm_seconds` and the others add the session's idle time so far |
| Accounting.ResetKeepsIdleCredit | main.c:184-191 | with 600 s, idle from 100, SIGUSR1 at 500 and a resume at 600 leave a 500 s credit and 1000 s owed |
| Accounting.ActiveTimeBetweenAlerts | main.c:211-218 | from a fresh countdown to the next notification, with no idle session open at either end, exactly `alarm_seconds` of active time pass |
| Accounting.IdleCreditExample | main.c:272-276 | with 600 s, idle from 400 to 450: the alarm at 600 pays back 50 s and the one at 650 is the only notification |
| Accounting.AlertWhileIdle | main.c:267-270 | an admissible run in which the notification is shown while an idle session is open |
| Log.InitLevel | main.c:136-140 | `pme_log_init` adopts a real level and ignores any other, so a valid level stays valid |
| Log.ColorIndex | main.c:160-161 | the colour slot is the level clamped to `LOG_LEVEL_LAST - 1`, always inside the colour table |
| Log.Emit | main.c:142-145 | a message is written iff its verbosity is at most the current level |
| Log.InitAllStaysValid | main.c:136-140 | after any sequence of `pme_log_init` calls the level is a real one: the last real level requested, whatever invalid requests follow it, or unchanged if none was real |
| Log.FilterIsThreshold | main.c:142-145 | the filter is downward closed in verbosity and monotone in the level; debug output appears only after `-d` |
| Args.CheckUnsigned | main.c:389-414 | `ULONG_MAX` exits 1, any other value above `UINT_MAX` exits 2, every value up to `UINT_MAX` (0 included) is stored unchanged |
| Args.ParseUrgency | main.c:427-437 | as written: an `atoi` result of 0 exits 1, a value outside [LOW, CRITICAL] exits 2, other values are stored |
| Args.LowUrgencyUnreachable | main.c:427-437 | the urgency LOW (0) lies in the accepted range, yet no text makes the check as written accept it |
| Args.ParseUrgencyChecked | main.c:427-437 | corrected: non-numeric text exits 1, numbers outside [LOW, CRITICAL] exit 2, all three levels are accepted |
| Args.UrgencyChecksAgreeExceptLow | main.c:427-437 | the corrected check agrees with the one as written on every input except the text for LOW |
| Args.Apply | main.c:388-461 | one option: `-s`, `-b`, `-c`, `-S`, `-x` and `-d` are always accepted, `-h` exits 0, an unknown option 1; `-i`/`-t` exit iff above `UINT_MAX`, with the `strtoul` check's code (1 for `ULONG_MAX`, else 2); `-u` exits iff the check as written rejects it, with its code; an accepted option sets its own setting (for `-S` the seat name, for `-d` the debug level) and leaves every other unchanged |
| Args.ParseFrom | main.c:384-463 | a command line is accepted iff every option is; a rejected one exits with the code of its first failing option, always 0, 1 or 2; an accepted one holds no `-h` or unknown option |
| Args.VerdictIgnoresSettings | main.c:388-461 | whether an option is accepted, and a rejected option's exit code, do not depend on the options before it |
| Args.FirstFailureWins | main.c:384-463 | `-h` before an out-of-range `-t` exits 0, the reverse order exits 2 |
| Args.ParseArgs | main.c:466 | from the initial globals: accepted iff every option is, otherwise the first failing option's exit code; accepted settings are valid and carry the last `-t` value, or thirty minutes without one |
| Args.ParseFromSound | main.c:384-463 | an accepted command line yields a valid urgency and log level and the last `-t` value unchanged; any out-of-range `-t` value makes the process exit |
| Seat.Announce | main.c:242-254 | every announced seat is inserted at the list head, so the list holds the seats in reverse announcement order |
| Seat.SelectSeat | main.c:329-334 | the selection loop returns the last matching seat of the list, none iff nothing matches |
| Seat.SelectsFirstAnnounced | main.c:329-334 | together with head insertion, the seat chosen is the first matching seat the compositor announced |
| Daemon.Launch | main.c:465-471 | the process enters the loop iff the command line is accepted, otherwise exits with the parser's code; once running it notifies at most once per SIGALRM and runs no command without `-x` |
| Daemon.ZeroIntervalNeverNotifies | main.c:402-414 | `-t 0` is accepted and the resulting daemon never notifies while every SIGALRM comes from its own alarm when due |
| Daemon.ForeignAlarmWithCreditNotifies | main.c:207-220 | with `-t 0`, a foreign SIGALRM while credit is held arms an alarm for the credit, which arrives on time and notifies |
| Daemon.DefaultFirstNotification | main.c:41 | without options the first notification is due thirty minutes after the loop starts, and that alarm shows it |

## Left out

- Wayland bootstrap is not modelled: connecting, the registry, binding, seat listeners, `display_event` and the event loop (main.c:225-368). They are protocol I/O against libwayland, which is not part of this model. Only the seat order and selection are modelled.
- The startup exits for a missing idle notifier (-2) and a missing seat (-3), main.c:336-348, are not modelled. Neither is the `strcmp` on a seat that never reported its name.
- libnotify is not modelled (main.c:52-74). Showing the message is counted in `alerts`. The summary, body and icon texts and their defaults are not modelled.
- `run_command` (main.c:76-112) is reduced to the counter `commands`. Its double fork, `execvp` and `waitpid` are process plumbing.
- `time(NULL)`, `localtime_r`, `strftime`, `isatty` and the colour output of `_pme_log` (main.c:150-172) are left out. The clock is the parameter `now`, and only the filter decision and colour slot are modelled.
- Asynchronous signal delivery is abstracted away. Handlers run one at a time in event order. The kernel's delivery time of an alarm is the predicate `Timely`/`Admissible`, not a clock.
- `pme_terminate` tears down the display, event loop and notification (main.c:128-134). Only "no further event is handled" is modelled. During `parse_args` that teardown acts on objects not yet created, and libwayland is not part of this model. So only the exit code passed is modelled.
- `getopt`, `strtoul` and `atoi` string parsing are left out. An option carries the number produced. Partial prefixes (`atoi("2x")`) and `int` overflow in `atoi` are not modelled.
- `idle_timeout` is stored but only passed to the compositor. Its effect on when `idled` arrives is the compositor's business.
- `time_t` overflow is not modelled: timestamps are unbounded naturals.
- The expiry of `alarm()` counts elapsed seconds, while `time(NULL)` is the wall clock, which can be stepped. The model keeps alarm deadlines on the `time(NULL)` clock (`now`), so a run across a wall-clock step, whose SIGALRM arrives when `time(NULL)` no longer reads the deadline, is neither `Timely` nor `Admissible`, and the lemmas that assume either say nothing about it.
- `register_alarm` discards the value `alarm()` returns (seconds left on the replaced alarm). `Alarm.Remaining` models that value only to state the contract of `Alarm.Register`.
- Accounting.Conservation: holds only for runs whose credit cannot wrap past `UINT_MAX`. It requires the starting credit plus the run's duration to fit in an `unsigned int`. With wrap-around the owed time is only preserved modulo 2^32, and `Coordinator.OnResumed` states that congruence.
- Trace.InhibitedStaysQuiet: requires every SIGALRM to be `Timely`, so it does not cover a SIGALRM generated at the deadline but dispatched after the SIGUSR2 that cancelled the alarm. That race is exhibited separately by `Trace.AlarmRacesInhibit`; the model has no state for "generated but not yet dispatched".
- Accounting.ActiveTimeBetweenAlerts: needs no idle session open at either notification. An idle session spanning a notification carries its idle time into the following period.

## Findings

| source | as written | input that shows it | evidently intended | confidence | as-written member | corrected member |
|---|---|---|---|---|---|---|
| main.c:427-437 | an `atoi` result of 0 is treated as a parse failure before the range check [`NOTIFY_URGENCY_LOW`, `NOTIFY_URGENCY_CRITICAL`], and libnotify's `NOTIFY_URGENCY_LOW` is 0 | `-u 0` exits with code 1 | `-u 0` selects the low urgency; only text that is not a number exits with 1 | not executed; high (the range check names LOW as valid) | Args.LowUrgencyUnreachable | Args.ParseUrgencyChecked |

`Args.Apply`, and so `Args.ParseArgs` and `Daemon.Launch`, use the check as written: `-u 0` exits with 1 there, as in the code. The corrected check is the separate member `Args.ParseUrgencyChecked`. `Args.UrgencyChecksAgreeExceptLow` shows that the only difference is the text "0".

=== FILE: accounting.dfy ===
/** Why the idle credit works. Idle time is never subtracted while it happens:
    the pending alarm keeps running, `handle_resumed` adds the idle duration to
    `time_left` (main.c:272-276), and SIGALRM pays the credit back by
    re-arming for it (main.c:216-218). The quantity `Owed` below, the active
    time still to go before the next notification, is conserved by
    `handle_idled`, `handle_resumed` and a SIGALRM delivered when its alarm is
    due; only active time lowers it, and each notification raises it by
    `alarm_seconds`. The operator signals are outside this: SIGUSR1 and
    un-inhibiting start a fresh countdown (`FreshCountdown`), and inhibiting
    leaves no alarm pending at all. */
module Accounting {
  import opened CTypes
  import opened Alarm
  import opened Coordinator
  import opened Trace

  /** Whether an idle session is open after `ev`. The compositor alternates
      `idled` and `resumed` (ext-idle-notify-v1), which `Admissible` demands. */
  function OpenAfter(open: bool, ev: Event): bool
  {
    match ev
    case Idled => true
    case Resumed => false
    case Sig(_) => open
  }

  function OpenAfterAll(open: bool, tr: seq<Timed>): bool
    decreases |tr|
  {
    if tr == [] then open else OpenAfterAll(OpenAfter(open, tr[0].ev), tr[1..])
  }

  /** Idle time of the open session that `handle_resumed` has not yet added. */
  function IdleCredit(s: State, open: bool, now: nat): nat
    requires open ==> s.idleTs <= now
  {
    if open then now - s.idleTs else 0
  }

  /** Active time still to go before the next notification: time until the
      pending alarm, plus credit not yet paid back, plus the idle time of an
      open session. */
  function Owed(s: State, open: bool, now: nat): int
    requires s.timer.Armed?
    requires open ==> s.idleTs <= now
  {
    (s.timer.deadline - now) + s.timeLeft + IdleCredit(s, open, now)
  }

  /** The clock reading at the last event of the trace. */
  function EndTime(now: nat, tr: seq<Timed>): nat
    decreases |tr|
  {
    if tr == [] then now else EndTime(tr[0].at, tr[1..])
  }

  /** Time between the events of the trace during which no idle session was
      open: the time the user was present. */
  function ActiveTime(open: bool, now: nat, tr: seq<Timed>): int
    decreases |tr|
  {
    if tr == [] then 0
    else (if open then 0 else tr[0].at - now) + ActiveTime(OpenAfter(open, tr[0].ev), tr[0].at, tr[1..])
  }

  /** A trace of idle events and kernel-delivered alarms, in time order, with
      `idled` and `resumed` alternating, and no event later than the pending
      alarm (which would have been delivered first). Deadlines are on the
      `time(NULL)` clock, so a run across a step of the wall clock is not
      admissible. */
  predicate Admissible(cfg: Config, s: State, open: bool, now: nat, tr: seq<Timed>)
    decreases |tr|
  {
    tr == [] ||
    (var e := tr[0];
     && now <= e.at
     && (e.ev == Idled || e.ev == Resumed || e.ev == Sig(SigAlrm))
     && (e.ev == Idled ==> !open)
     && (e.ev == Resumed ==> open)
     && (s.timer.Armed? ==> e.at <= s.timer.deadline)
     && (e.ev == Sig(SigAlrm) ==> Fires(s.timer, e.at))
     && Admissible(cfg, Step(cfg, s, e), OpenAfter(open, e.ev), e.at, tr[1..]))
  }

  /** One admissible event, including the time that passed before it: the
      owed time falls by the active time that passed and rises by
      `alarm_seconds` if the event produced a notification. Idle credit is
      never lost to wrap-around while it stays below 2^32. */
  lemma StepConserves(cfg: Config, s: State, open: bool, now: nat, e: Timed, bound: int)
    requires cfg.alarmSeconds > 0 && s.running
    requires s.timer.Armed? && e.at <= s.timer.deadline
    requires open ==> s.idleTs <= now
    requires now <= e.at
    requires e.ev == Idled || e.ev == Resumed || e.ev == Sig(SigAlrm)
    requires e.ev == Idled ==> !open
    requires e.ev == Resumed ==> open
    requires e.ev == Sig(SigAlrm) ==> Fires(s.timer, e.at)
    requires s.timeLeft + IdleCredit(s, open, now) + (bound - now) <= UINT_MAX
    requires e.at <= bound
    ensures var r := Step(cfg, s, e); var o := OpenAfter(open, e.ev);
      && r.running && r.timer.Armed? && e.at <= r.timer.deadline
      && (o ==> r.idleTs <= e.at)
      && r.timeLeft + IdleCredit(r, o, e.at) + (bound - e.at) <= UINT_MAX
      && Owed(r, o, e.at) + (if open then 0 else e.at - now)
         == Owed(s, open, now) + (if r.alerts == s.alerts then 0 else cfg.alarmSeconds)
  {
    var r := Step(cfg, s, e);
    match e.ev
    case Idled =>
      assert r == OnIdled(s, e.at);
    case Resumed =>
      assert r == OnResumed(s, e.at);
      assert s.timeLeft + (e.at - s.idleTs) <= UINT_MAX;
      assert r.timeLeft == s.timeLeft + (e.at - s.idleTs);
    case Sig(_) =>
      assert r == OnAlarm(cfg, s, e.at);
  }

  /** Conservation of owed time over an admissible run: the owed time at the
      end plus the active time spent equals the owed time at the start plus
      `alarm_seconds` for every notification shown. `bound` is a clock reading
      no event passes; together with the credit held at the start it must fit
      in an `unsigned int`, which rules out wrap-around of `time_left`. */
  lemma {:induction false} Conservation(cfg: Config, s: State, open: bool, now: nat, tr: seq<Timed>)
    requires cfg.alarmSeconds > 0 && s.running
    requires s.timer.Armed? && now <= s.timer.deadline
    requires open ==> s.idleTs <= now
    requires Admissible(cfg, s, open, now, tr)
    requires s.timeLeft + IdleCredit(s, open, now) + (EndTime(now, tr) - now) <= UINT_MAX
    ensures var r := Run(cfg, s, tr); var t := EndTime(now, tr); var o := OpenAfterAll(open, tr);
      && r.running && r.timer.Armed? && t <= r.timer.deadline
      && (o ==> r.idleTs <= t)
      && Owed(r, o, t) + ActiveTime(open, now, tr)
         == Owed(s, open, now) + cfg.alarmSeconds * (r.alerts - s.alerts)
    decreases |tr|
  {
    if tr != [] {
      var e := tr[0];
      var s1 := Step(cfg, s, e);
      var o1 := OpenAfter(open, e.ev);
      var t := EndTime(now, tr);
      assert t == EndTime(e.at, tr[1..]);
      EndTimeNotBefore(cfg, s1, o1, e.at, tr[1..]);
      StepConserves(cfg, s, open, now, e, t);
      Conservation(cfg, s1, o1, e.at, tr[1..]);
      var r := Run(cfg, s, tr);
      assert r == Run(cfg, s1, tr[1..]);
      assert OpenAfterAll(open, tr) == OpenAfterAll(o1, tr[1..]);
      assert ActiveTime(open, now, tr) == (if open then 0 else e.at - now) + ActiveTime(o1, e.at, tr[1..]);
      Distribute(cfg.alarmSeconds, r.alerts - s1.alerts, s1.alerts - s.alerts);
    }
  }

  /** Events of an admissible trace are in time order, so the trace ends no
      earlier than it starts. */
  lemma {:induction false} EndTimeNotBefore(cfg: Config, s: State, open: bool, now: nat, tr: seq<Timed>)
    requires Admissible(cfg, s, open, now, tr)
    ensures now <= EndTime(now, tr)
    decreases |tr|
  {
    if tr != [] {
      EndTimeNotBefore(cfg, Step(cfg, s, tr[0]), OpenAfter(open, tr[0].ev), tr[0].at, tr[1..]);
    }
  }

  /** Splits the notification term of `Conservation` between the first event
      and the rest of the run. */
  lemma Distribute(a: int, x: int, y: int)
    ensures a * (x + y) == a * x + a * y
  {
  }

  /** The ways a countdown starts afresh: entering the event loop, SIGUSR1,
      SIGUSR2 lifting an inhibition, and a notification. Each leaves no credit
      and arms `alarm_seconds`; with no idle session open exactly
      `alarm_seconds` is owed, which is where `ActiveTimeBetweenAlerts` begins.
      Only un-inhibiting restarts `idle_timestamp` (main.c:198): SIGUSR1 and a
      notification during an open idle session leave its idle time owed on
      top, to be credited at the next resume. */
  lemma FreshCountdown(cfg: Config, s: State, e: Timed)
    requires cfg.alarmSeconds > 0 && s.running
    requires || e.ev == Sig(SigUsr1)
             || (e.ev == Sig(SigUsr2) && s.inhibited)
             || (e.ev == Sig(SigAlrm) && s.timeLeft == 0)
    ensures Init(cfg, e.at).timer == Armed(e.at + cfg.alarmSeconds)
    ensures Owed(Init(cfg, e.at), false, e.at) == cfg.alarmSeconds
    ensures var r := Step(cfg, s, e);
      && r.timer == Armed(e.at + cfg.alarmSeconds) && r.timeLeft == 0
      && Owed(r, false, e.at) == cfg.alarmSeconds
    ensures e.ev == Sig(SigUsr2) && s.inhibited ==> Owed(Step(cfg, s, e), true, e.at) == cfg.alarmSeconds
    ensures e.ev != Sig(SigUsr2) && s.idleTs <= e.at ==>
              Owed(Step(cfg, s, e), true, e.at) == cfg.alarmSeconds + (e.at - s.idleTs)
  {
  }

  /** Idle time from before a SIGUSR1 is still credited at the next resume.
      With `alarm_seconds == 600`: idle from 100, SIGUSR1 at 500, resumed at
      600. The resume credits 500 s, so 1000 s of active time after it pass
      before the next notification, not 600. */
  lemma ResetKeepsIdleCredit()
    ensures var cfg := Config(600, false);
      var tr := [Timed(Idled, 100), Timed(Sig(SigUsr1), 500), Timed(Resumed, 600)];
      var r := Run(cfg, Init(cfg, 0), tr);
      && r.timeLeft == 500 && r.timer == Armed(1100)
      && Owed(r, false, 600) == 1000
  {
  }

  /** The property the daemon exists for: starting from a fresh countdown with
      no idle session open, if the only notification of an admissible run is
      the one produced by its last event and no idle session is open then,
      exactly `alarm_seconds` of active time passed in between. */
  lemma ActiveTimeBetweenAlerts(cfg: Config, s: State, now: nat, tr: seq<Timed>)
    requires cfg.alarmSeconds > 0 && s.running
    requires s.timer == Armed(now + cfg.alarmSeconds) && s.timeLeft == 0
    requires Admissible(cfg, s, false, now, tr)
    requires EndTime(now, tr) - now <= UINT_MAX
    requires tr != []
    requires Run(cfg, s, tr[..|tr| - 1]).alerts == s.alerts
    requires Run(cfg, s, tr).alerts == s.alerts + 1
    requires !OpenAfterAll(false, tr)
    ensures ActiveTime(false, now, tr) == cfg.alarmSeconds
  {
    var pre := tr[..|tr| - 1];
    var last := tr[|tr| - 1];
    assert tr == pre + [last];
    RunAppend(cfg, s, pre, [last]);
    var p := Run(cfg, s, pre);
    var r := Run(cfg, s, tr);
    assert r == Step(cfg, p, last);
    assert r == OnAlarm(cfg, p, last.at);
    EndTimeIsLast(now, tr);
    Conservation(cfg, s, false, now, tr);
  }

  /** The clock reading at the end of a non-empty trace is that of its last
      event. */
  lemma {:induction false} EndTimeIsLast(now: nat, tr: seq<Timed>)
    requires tr != []
    ensures EndTime(now, tr) == tr[|tr| - 1].at
    decreases |tr|
  {
    if |tr| > 1 {
      EndTimeIsLast(tr[0].at, tr[1..]);
    }
  }

  /** An example with `alarm_seconds == 600`: armed at
      0, idle from 400 to 450, the alarm at 600 pays back the 50 seconds of
      credit and the one at 650 shows the only notification, after exactly 600
      seconds of active time. */
  lemma IdleCreditExample()
    ensures var cfg := Config(600, false);
      var tr := [Timed(Idled, 400), Timed(Resumed, 450), Timed(Sig(SigAlrm), 600), Timed(Sig(SigAlrm), 650)];
      && Admissible(cfg, Init(cfg, 0), false, 0, tr)
      && Run(cfg, Init(cfg, 0), tr[..3]).alerts == 0
      && Run(cfg, Init(cfg, 0), tr).alerts == 1
      && Run(cfg, Init(cfg, 0), tr).timer == Armed(1250)
      && ActiveTime(false, 0, tr) == 600
  {
    var cfg := Config(600, false);
    var tr := [Timed(Idled, 400), Timed(Resumed, 450), Timed(Sig(SigAlrm), 600), Timed(Sig(SigAlrm), 650)];
    var s0 := Init(cfg, 0);
    var s1 := Step(cfg, s0, tr[0]);
    var s2 := Step(cfg, s1, tr[1]);
    var s3 := Step(cfg, s2, tr[2]);
    var s4 := Step(cfg, s3, tr[3]);
    assert s2.timeLeft == 50;
    assert s3.timer == Armed(650) && s3.timeLeft == 0 && s3.alerts == 0;
    assert s4.alerts == 1;
    assert tr[1..][1..] == tr[2..];
    assert tr[2..][1..] == tr[3..];
    assert tr[3..][1..] == [];
    var pre := tr[..3];
    assert pre[0] == tr[0] && pre[1..][0] == tr[1] && pre[1..][1..][0] == tr[2];
    assert pre[1..][1..][1..] == [];
    assert Run(cfg, s2, pre[1..][1..]) == s3;
    assert Run(cfg, s1, pre[1..]) == s3;
    assert Run(cfg, s0, tr) == s4;
    assert Run(cfg, s0, pre) == s3;
    assert Admissible(cfg, s3, false, 600, tr[3..]);
    assert Admissible(cfg, s2, false, 450, tr[2..]);
    assert Admissible(cfg, s1, true, 400, tr[1..]);
  }

  /** The pending alarm is not cancelled on `idled`, so a countdown that runs
      out during an idle session shows the notification to an absent user. */
  lemma AlertWhileIdle()
    ensures var cfg := Config(600, false);
      var tr := [Timed(Idled, 100), Timed(Sig(SigAlrm), 600)];
      && Admissible(cfg, Init(cfg, 0), false, 0, tr)
      && OpenAfterAll(false, tr)
      && Run(cfg, Init(cfg, 0), tr).alerts == 1
  {
    var cfg := Config(600, false);
    var tr := [Timed(Idled, 100), Timed(Sig(SigAlrm), 600)];
    assert tr[1..] == [tr[1]];
    assert Run(cfg, Init(cfg, 0), tr) == Step(cfg, Step(cfg, Init(cfg, 0), tr[0]), tr[1]);
  }
}

=== FILE: alarm.dfy ===
/** The process alarm clock of POSIX.1 `alarm()`, as used by `register_alarm`
    (main.c:114-120): one pending expiry per process at most, every call
    replaces the pending one, and a call with 0 seconds only cancels. */
module Alarm {
  import opened CTypes

  /** The pending SIGALRM of the process: none, or one at an absolute time. */
  datatype Timer = Disarmed | Armed(deadline: nat)

  /** The alarm is due at time `at`: the kernel delivers SIGALRM then. */
  predicate Fires(t: Timer, at: nat)
  {
    t == Armed(at)
  }

  /** Seconds until the pending alarm is due, as `alarm()` reports them back;
      0 when nothing is pending. */
  function Remaining(t: Timer, now: nat): nat
  {
    if t.Armed? && t.deadline > now then t.deadline - now else 0
  }

  /** `register_alarm(seconds)` issued at time `now`. */
  function Register(t: Timer, now: nat, seconds: uint): (r: Timer)
    ensures seconds == 0 ==> forall at :: !Fires(r, at)
    ensures seconds > 0 ==> Fires(r, now + seconds) && Remaining(r, now) == seconds
  {
    if seconds == 0 then Disarmed else Armed(now + seconds)
  }

  /** The result of arming never depends on what was pending before, and only
      the last of several arming calls at the same instant counts. */
  lemma RegisterReplaces(t: Timer, t': Timer, now: nat, a: uint, b: uint)
    ensures Register(t, now, b) == Register(t', now, b)
    ensures Register(Register(t, now, a), now, b) == Register(t, now, b)
  {
  }

  /** An alarm armed for `seconds > 0` at `now` is due at `now + seconds` and
      at no other time; one armed for 0 seconds is never due. */
  lemma FiresExactlyOnce(t: Timer, now: nat, seconds: uint, at: nat)
    ensures Fires(Register(t, now, seconds), at) <==> seconds > 0 && at == now + seconds
  {
  }
}

=== FILE: args.dfy ===
/** `parse_args` (main.c:384-463): the `getopt` loop and the checks it applies
    to numeric option values. The `strtoul` and `atoi` conversions themselves
    are not modelled: an option carries the number they produced. */
module Args {
  import opened CTypes
  import Log
  import Coordinator

  /** `NotifyUrgency` of libnotify. */
  const NOTIFY_URGENCY_LOW: int := 0
  const NOTIFY_URGENCY_NORMAL: int := 1
  const NOTIFY_URGENCY_CRITICAL: int := 2

  /** `idle_timeout` before any `-i` option (main.c:40): thirty seconds. */
  const DEFAULT_IDLE_TIMEOUT_MS: uint := 30 * 1000

  /** Either the value an option stores, or the exit code `pme_terminate`
      (or `exit`) is called with. */
  datatype Parsed<T> = Accept(value: T) | Exit(code: int)

  /** Checks on the `strtoul` result of `-i` and `-t` (main.c:390-399 and
      403-412): `ULONG_MAX`, which `strtoul` returns on overflow, exits with 1;
      any other value above `UINT_MAX` exits with 2; anything else is stored
      unchanged, 0 included. */
  function CheckUnsigned(v: ulong): (r: Parsed<uint>)
    ensures r == Exit(1) <==> v == ULONG_MAX
    ensures r == Exit(2) <==> UINT_MAX < v < ULONG_MAX
    ensures r.Accept? <==> v <= UINT_MAX
    ensures r.Accept? ==> r.value == v
  {
    if v == ULONG_MAX then Exit(1)
    else if v > UINT_MAX then Exit(2)
    else Accept(v)
  }

  /** `atoi` on the urgency text: the number when the text is one, 0 when it
      is not. */
  function Atoi(text: Option<int>): int
  {
    match text
    case Some(n) => n
    case None => 0
  }

  /** The `-u` checks as written (main.c:427-437): a result of 0 is taken as a
      parse failure (exit 1), one outside [LOW, CRITICAL] exits with 2. */
  function ParseUrgency(atoiResult: int): (r: Parsed<int>)
    ensures r == Exit(1) <==> atoiResult == 0
    ensures r == Exit(2) <==> atoiResult != 0 && !(NOTIFY_URGENCY_LOW <= atoiResult <= NOTIFY_URGENCY_CRITICAL)
    ensures r.Accept? ==> r.value == atoiResult
  {
    if atoiResult == 0 then Exit(1)
    else if atoiResult < NOTIFY_URGENCY_LOW || atoiResult > NOTIFY_URGENCY_CRITICAL then Exit(2)
    else Accept(atoiResult)
  }

  /** Since `NOTIFY_URGENCY_LOW` is 0, the range check names LOW as valid but
      the earlier parse-failure check already rejects it: `-u 0` exits with 1
      and the low urgency can never be selected. */
  lemma LowUrgencyUnreachable()
    ensures NOTIFY_URGENCY_LOW <= NOTIFY_URGENCY_LOW <= NOTIFY_URGENCY_CRITICAL
    ensures ParseUrgency(Atoi(Some(NOTIFY_URGENCY_LOW))) == Exit(1)
    ensures forall text :: ParseUrgency(Atoi(text)) != Accept(NOTIFY_URGENCY_LOW)
  {
  }

  /** The `-u` check with the parse failure told apart from a parsed 0: text
      that is not a number exits with 1, a number outside [LOW, CRITICAL]
      exits with 2, and every urgency level is accepted. */
  function ParseUrgencyChecked(text: Option<int>): (r: Parsed<int>)
    ensures r == Exit(1) <==> text.None?
    ensures r.Accept? <==> text.Some? && NOTIFY_URGENCY_LOW <= text.value <= NOTIFY_URGENCY_CRITICAL
    ensures r.Accept? ==> r.value == text.value
    ensures r.Exit? ==> r.code == 1 || r.code == 2
  {
    match text
    case None => Exit(1)
    case Some(n) =>
      if n < NOTIFY_URGENCY_LOW || n > NOTIFY_URGENCY_CRITICAL then Exit(2) else Accept(n)
  }

  /** The corrected check differs from the one as written only on the text
      "0", which is the low urgency. */
  lemma UrgencyChecksAgreeExceptLow(text: Option<int>)
    ensures text != Some(NOTIFY_URGENCY_LOW) ==> ParseUrgencyChecked(text) == ParseUrgency(Atoi(text))
    ensures ParseUrgencyChecked(Some(NOTIFY_URGENCY_LOW)) == Accept(NOTIFY_URGENCY_LOW)
  {
  }

  /** One option as `getopt` hands it over. Strings the daemon only stores
      (summary, body, icon, command) are reduced to their presence. */
  datatype Opt =
    | IdleTimeout(raw: ulong)     // -i
    | Interval(raw: ulong)        // -t
    | Summary                     // -s
    | Body                        // -b
    | Icon                        // -c
    | Urgency(text: Option<int>)  // -u
    | SeatName(name: string)      // -S
    | Command                     // -x
    | Debug                       // -d
    | Help                        // -h
    | Unknown                     // '?'

  /** The globals `parse_args` writes. */
  datatype Settings = Settings(
    idleTimeout: uint,
    alarmSeconds: uint,
    urgency: int,
    seatName: Option<string>,
    hasCommand: bool,
    logLevel: uint)

  /** The globals' initial values (main.c:30, 38-46). */
  const DEFAULTS: Settings :=
    Settings(DEFAULT_IDLE_TIMEOUT_MS, Coordinator.DEFAULT_ALARM_SECONDS, NOTIFY_URGENCY_NORMAL,
             None, false, Log.DEFAULT_LEVEL)

  /** One `case` of the `switch` in `parse_args` (main.c:388-461), with the
      `-u` checks as written. Each option changes only its own global; `-h`
      exits with 0 and an unknown option with 1. */
  function Apply(st: Settings, o: Opt): (r: Parsed<Settings>)
    ensures r.Exit? ==> r.code == 0 || r.code == 1 || r.code == 2
    ensures o.Help? ==> r == Exit(0)
    ensures o.Unknown? ==> r == Exit(1)
    ensures (o.IdleTimeout? || o.Interval?) ==> (r.Exit? <==> o.raw > UINT_MAX)
    ensures o.Urgency? ==> (r.Exit? <==> ParseUrgency(Atoi(o.text)).Exit?)
    ensures (o.IdleTimeout? || o.Interval?) && r.Exit? ==> r.code == CheckUnsigned(o.raw).code
    ensures o.Urgency? && r.Exit? ==> r.code == ParseUrgency(Atoi(o.text)).code
    ensures (o.Summary? || o.Body? || o.Icon? || o.SeatName? || o.Command? || o.Debug?) ==> r.Accept?
    ensures r.Accept? ==> r.value.alarmSeconds == (if o.Interval? then o.raw else st.alarmSeconds)
    ensures r.Accept? ==> r.value.idleTimeout == (if o.IdleTimeout? then o.raw else st.idleTimeout)
    ensures r.Accept? ==> r.value.urgency == (if o.Urgency? then Atoi(o.text) else st.urgency)
    ensures r.Accept? ==> r.value.hasCommand == (st.hasCommand || o.Command?)
    ensures r.Accept? ==> r.value.seatName == (if o.SeatName? then Some(o.name) else st.seatName)
    ensures r.Accept? ==> r.value.logLevel
                          == (if o.Debug? then Log.InitLevel(st.logLevel, Log.LOG_DEBUG) else st.logLevel)
    ensures r.Accept? && (o.Summary? || o.Body? || o.Icon?) ==> r.value == st
  {
    match o
    case IdleTimeout(v) =>
      (match CheckUnsigned(v)
       case Accept(n) => Accept(st.(idleTimeout := n))
       case Exit(c) => Exit(c))
    case Interval(v) =>
      (match CheckUnsigned(v)
       case Accept(n) => Accept(st.(alarmSeconds := n))
       case Exit(c) => Exit(c))
    case Urgency(text) =>
      (match ParseUrgency(Atoi(text))
       case Accept(u) => Accept(st.(urgency := u))
       case Exit(c) => Exit(c))
    case SeatName(name) => Accept(st.(seatName := Some(name)))
    case Command => Accept(st.(hasCommand := true))
    case Debug => Accept(st.(logLevel := Log.InitLevel(st.logLevel, Log.LOG_DEBUG)))
    case Summary | Body | Icon => Accept(st)
    case Help => Exit(0)
    case Unknown => Exit(1)
  }

  /** The `getopt` loop: options in order, the first failing one ends the
      process. A command line is accepted only if it holds no `-h` and no
      unknown option, and every exit uses one of the codes 0, 1 or 2. */
  function ParseFrom(st: Settings, opts: seq<Opt>): (r: Parsed<Settings>)
    ensures r.Accept? <==> forall i :: 0 <= i < |opts| ==> Apply(st, opts[i]).Accept?
    ensures r.Exit? ==> exists i :: && 0 <= i < |opts| && Apply(st, opts[i]) == r
                                    && forall j :: 0 <= j < i ==> Apply(st, opts[j]).Accept?
    ensures r.Exit? ==> r.code == 0 || r.code == 1 || r.code == 2
    ensures r.Accept? ==> forall i :: 0 <= i < |opts| ==> !opts[i].Help? && !opts[i].Unknown?
    ensures r.Accept? && (forall i :: 0 <= i < |opts| ==> !opts[i].Command?) ==> r.value.hasCommand == st.hasCommand
    decreases |opts|
  {
    if opts == [] then Accept(st)
    else
      match Apply(st, opts[0])
      case Accept(st') =>
        VerdictIgnoresSettings(st, st');
        ParseFrom(st', opts[1..])
      case Exit(c) => Exit(c)
  }

  /** Whether an option is accepted, and the exit code of a rejected one,
      depend on the option alone and not on the options before it. */
  lemma VerdictIgnoresSettings(st: Settings, st': Settings)
    ensures forall o :: Apply(st, o).Accept? == Apply(st', o).Accept?
    ensures forall o :: Apply(st, o).Exit? ==> Apply(st', o) == Apply(st, o)
  {
  }

  /** The first failing option decides the exit code: `-h` before an
      out-of-range `-t` exits with 0, the other way round with 2. */
  lemma FirstFailureWins(big: ulong)
    requires UINT_MAX < big < ULONG_MAX
    ensures ParseArgs([Help, Interval(big)]) == Exit(0)
    ensures ParseArgs([Interval(big), Help]) == Exit(2)
  {
  }

  /** `parse_args` from the globals' initial values (main.c:466). An accepted
      command line leaves valid settings whose interval is the last `-t` value,
      or thirty minutes when there is none. */
  function ParseArgs(opts: seq<Opt>): (r: Parsed<Settings>)
    ensures r.Accept? <==> forall i :: 0 <= i < |opts| ==> Apply(DEFAULTS, opts[i]).Accept?
    ensures r.Exit? ==> exists i :: && 0 <= i < |opts| && Apply(DEFAULTS, opts[i]) == r
                                    && forall j :: 0 <= j < i ==> Apply(DEFAULTS, opts[j]).Accept?
    ensures r.Accept? ==> Valid(r.value)
    ensures r.Accept? ==> r.value.alarmSeconds
                          == match LastInterval(opts)
                             case Some(v) => v
                             case None => Coordinator.DEFAULT_ALARM_SECONDS
  {
    ParseFromSound(DEFAULTS, opts);
    ParseFrom(DEFAULTS, opts)
  }

  /** Settings whose every value is one the daemon can accept. */
  predicate Valid(st: Settings)
  {
    && NOTIFY_URGENCY_LOW <= st.urgency <= NOTIFY_URGENCY_CRITICAL
    && st.logLevel < Log.LOG_LEVEL_LAST
  }

  /** The value of the last `-t` option, if any. */
  function LastInterval(opts: seq<Opt>): Option<ulong>
    decreases |opts|
  {
    if opts == [] then None
    else if opts[|opts| - 1].Interval? then Some(opts[|opts| - 1].raw)
    else LastInterval(opts[..|opts| - 1])
  }

  /** Parsing keeps the settings valid; an accepted command line stores the
      last `-t` value unchanged (or keeps the current interval when there is
      none); and a command line holding an out-of-range `-t` value is
      rejected. */
  lemma {:induction false} ParseFromSound(st: Settings, opts: seq<Opt>)
    requires Valid(st)
    ensures ParseFrom(st, opts).Accept? ==> Valid(ParseFrom(st, opts).value)
    ensures ParseFrom(st, opts).Accept? ==>
              ParseFrom(st, opts).value.alarmSeconds
              == match LastInterval(opts) case Some(v) => v case None => st.alarmSeconds
    ensures (exists i :: 0 <= i < |opts| && opts[i].Interval? && opts[i].raw > UINT_MAX)
            ==> ParseFrom(st, opts).Exit?
    decreases |opts|
  {
    if opts != [] {
      var o := opts[0];
      var rest := opts[1..];
      match Apply(st, o)
      case Exit(c) =>
      case Accept(st') =>
        ParseFromSound(st', rest);
        assert opts == [o] + rest;
        LastIntervalOfCons(o, rest);
        if o.Interval? {
          assert st'.alarmSeconds == o.raw;
        } else {
          assert st'.alarmSeconds == st.alarmSeconds;
        }
        if exists i :: 0 <= i < |opts| && opts[i].Interval? && opts[i].raw > UINT_MAX {
          var i :| 0 <= i < |opts| && opts[i].Interval? && opts[i].raw > UINT_MAX;
          if i > 0 {
            assert rest[i - 1] == opts[i];
          }
        }
    }
  }

  /** `LastInterval` seen from the front of the option list. */
  lemma {:induction false} LastIntervalOfCons(o: Opt, rest: seq<Opt>)
    ensures LastInterval([o] + rest)
            == if LastInterval(rest).Some? then LastInterval(rest)
               else if o.Interval? then Some(o.raw) else None
    decreases |rest|
  {
    var opts := [o] + rest;
    if rest == [] {
      assert opts[..|opts| - 1] == [];
    } else {
      assert opts[|opts| - 1] == rest[|rest| - 1];
      assert opts[..|opts| - 1] == [o] + rest[..|rest| - 1];
      LastIntervalOfCons(o, rest[..|rest| - 1]);
    }
  }

  /** The coordinator configuration an accepted command line yields. */
  function ConfigOf(st: Settings): (cfg: Coordinator.Config)
    ensures cfg.alarmSeconds == st.alarmSeconds && cfg.hasCommand == st.hasCommand
  {
    Coordinator.Config(st.alarmSeconds, st.hasCommand)
  }
}

=== FILE: coordinator.dfy ===
/** The alarm/idle bookkeeping of main.c: the globals `time_left`,
    `idle_timestamp` and `inhibited` (main.c:48-50), the pending alarm owned by
    `alarm()`, and one pure transition per handler. Every handler receives the
    current time `now` in place of `time(NULL)`. */
module Coordinator {
  import opened CTypes
  import opened Alarm

  /** Default `alarm_seconds` (main.c:41): thirty minutes. */
  const DEFAULT_ALARM_SECONDS: uint := 30 * 60

  /** What the handlers read but never change: `alarm_seconds` and whether an
      on-timeout `command` was configured. */
  datatype Config = Config(alarmSeconds: uint, hasCommand: bool)

  /** The coordinator's mutable state. `alerts` counts the calls of
      `show_notify_message` and `commands` the calls of `run_command`;
      `running` becomes false once `pme_terminate` has been called. */
  datatype State = State(
    timeLeft: uint,
    idleTs: nat,
    inhibited: bool,
    timer: Timer,
    alerts: nat,
    commands: nat,
    running: bool)

  /** The state on entry to the event loop: globals at their initial values and
      the first alarm registered for `alarm_seconds` (main.c:48-50, 356). */
  function Init(cfg: Config, now: nat): (r: State)
    ensures r.running && !r.inhibited && r.timeLeft == 0 && r.idleTs == 0
    ensures r.alerts == 0 && r.commands == 0
    ensures r.timer == Register(Disarmed, now, cfg.alarmSeconds)
  {
    State(0, 0, false, Register(Disarmed, now, cfg.alarmSeconds), 0, 0, true)
  }

  /** `handle_idled` (main.c:267-270): remembers when the seat went idle and
      touches nothing else; in particular the pending alarm keeps running. */
  function OnIdled(s: State, now: nat): (r: State)
    ensures r.idleTs == now
    ensures r.timeLeft == s.timeLeft && r.timer == s.timer && r.inhibited == s.inhibited
    ensures r.alerts == s.alerts && r.commands == s.commands && r.running == s.running
  {
    s.(idleTs := now)
  }

  /** `handle_resumed` (main.c:272-276): adds the idle duration to `time_left`
      as a credit. The sum is computed as a signed `time_t` and stored into an
      `unsigned int`, so it wraps modulo 2^32 when the clock went backwards or
      the credit overflows; without wrap-around it is the plain sum. */
  function OnResumed(s: State, now: nat): (r: State)
    ensures s.idleTs <= now && s.timeLeft + (now - s.idleTs) <= UINT_MAX ==>
              r.timeLeft == s.timeLeft + (now - s.idleTs)
    ensures (s.timeLeft + (now - s.idleTs) - r.timeLeft) % UINT_MODULUS == 0
    ensures r.idleTs == s.idleTs && r.timer == s.timer && r.inhibited == s.inhibited
    ensures r.alerts == s.alerts && r.commands == s.commands && r.running == s.running
  {
    s.(timeLeft := ToUint(s.timeLeft + (now - s.idleTs)))
  }

  /** SIGUSR1 (main.c:184-191): cancel, forget any idle credit, and arm a fresh
      `alarm_seconds` countdown, whatever was pending before and even while
      inhibited. */
  function OnReset(cfg: Config, s: State, now: nat): (r: State)
    ensures r.timeLeft == 0
    ensures cfg.alarmSeconds > 0 ==> r.timer == Armed(now + cfg.alarmSeconds)
    ensures cfg.alarmSeconds == 0 ==> r.timer == Disarmed
    ensures r.inhibited == s.inhibited && r.idleTs == s.idleTs
    ensures r.alerts == s.alerts && r.commands == s.commands && r.running == s.running
  {
    var cancelled := Register(s.timer, now, 0);
    s.(timeLeft := 0, timer := Register(cancelled, now, cfg.alarmSeconds))
  }

  /** SIGUSR2 (main.c:192-206): flips `inhibited`. Inhibiting cancels the
      pending alarm and keeps the credit; resuming drops the credit, restarts
      the idle timestamp and arms `alarm_seconds`. */
  function OnToggleInhibit(cfg: Config, s: State, now: nat): (r: State)
    ensures r.inhibited == !s.inhibited
    ensures !s.inhibited ==> r.timer == Disarmed && r.timeLeft == s.timeLeft && r.idleTs == s.idleTs
    ensures s.inhibited ==> r.timeLeft == 0 && r.idleTs == now
    ensures s.inhibited && cfg.alarmSeconds > 0 ==> r.timer == Armed(now + cfg.alarmSeconds)
    ensures s.inhibited && cfg.alarmSeconds == 0 ==> r.timer == Disarmed
    ensures r.alerts == s.alerts && r.commands == s.commands && r.running == s.running
  {
    if s.inhibited then
      s.(timeLeft := 0, idleTs := now, timer := Register(s.timer, now, cfg.alarmSeconds), inhibited := false)
    else
      s.(timer := Register(s.timer, now, 0), inhibited := true)
  }

  /** SIGALRM (main.c:207-220). Without credit it shows the notification, runs
      the command when one is configured, and re-arms `alarm_seconds`. With
      credit it shows nothing and re-arms for exactly the credit, which it then
      clears, so every credit is paid back once. */
  function OnAlarm(cfg: Config, s: State, now: nat): (r: State)
    ensures r.timeLeft == 0
    ensures r.alerts == s.alerts + 1 <==> s.timeLeft == 0
    ensures r.alerts == s.alerts <==> s.timeLeft > 0
    ensures r.commands == s.commands + (if cfg.hasCommand && s.timeLeft == 0 then 1 else 0)
    ensures s.timeLeft > 0 ==> r.timer == Armed(now + s.timeLeft)
    ensures s.timeLeft == 0 && cfg.alarmSeconds > 0 ==> r.timer == Armed(now + cfg.alarmSeconds)
    ensures s.timeLeft == 0 && cfg.alarmSeconds == 0 ==> r.timer == Disarmed
    ensures r.inhibited == s.inhibited && r.idleTs == s.idleTs && r.running == s.running
  {
    if s.timeLeft == 0 then
      s.(alerts := s.alerts + 1,
         commands := if cfg.hasCommand then s.commands + 1 else s.commands,
         timer := Register(s.timer, now, cfg.alarmSeconds))
    else
      s.(timer := Register(s.timer, now, s.timeLeft), timeLeft := 0)
  }

  /** SIGINT or SIGTERM (main.c:179-183): `pme_terminate(0)` ends the process;
      nothing is handled afterwards. */
  function OnTerminate(s: State): (r: State)
    ensures !r.running
    ensures r.alerts == s.alerts && r.commands == s.commands
  {
    s.(running := false)
  }
}

=== FILE: ctypes.dfy ===
/** Fixed-width C integer types of the LP64 platform the daemon is built for,
    and the small option type shared by the other modules. */
module CTypes {

  /** `UINT_MAX` and `ULONG_MAX` from <limits.h> on an LP64 platform. */
  const UINT_MAX: nat := 0xFFFF_FFFF
  const ULONG_MAX: nat := 0xFFFF_FFFF_FFFF_FFFF

  /** 2^32: the modulus of `unsigned int` arithmetic. */
  const UINT_MODULUS: nat := UINT_MAX + 1

  type uint = x: int | 0 <= x <= UINT_MAX
  type ulong = x: int | 0 <= x <= ULONG_MAX

  datatype Option<T> = None | Some(value: T)

  /** Conversion of an integer value to `unsigned int` (section 6.3.1.3 of
      ISO C11): the value in range that is congruent modulo 2^32. A value
      that already fits is kept. */
  function ToUint(x: int): (r: uint)
    ensures 0 <= x <= UINT_MAX ==> r == x
    ensures (x - r) % UINT_MODULUS == 0
  {
    x % UINT_MODULUS
  }
}

=== FILE: daemon.dfy ===
/** The daemon from the command line to the event loop (main.c:465-471), with
    the Wayland bootstrap between them left out: parse the options, then run
    the coordinator from its initial state. */
module Daemon {
  import opened CTypes
  import opened Alarm
  import opened Coordinator
  import opened Trace
  import opened Args

  /** The outcome of a run: the exit code of a rejected command line, or the
      coordinator's state after the events of the trace, the loop having been
      entered at time `start`. The process gets past option parsing exactly
      when the command line is accepted; once running, it shows at most one
      notification per SIGALRM, and runs no command unless `-x` was given. */
  function Launch(opts: seq<Opt>, start: nat, tr: seq<Timed>): (r: Parsed<State>)
    ensures r.Accept? <==> ParseArgs(opts).Accept?
    ensures r.Exit? ==> r.code == ParseArgs(opts).code
    ensures r.Accept? ==> r.value.alerts <= CountAlarms(tr)
    ensures r.Accept? && (forall i :: 0 <= i < |opts| ==> !opts[i].Command?) ==> r.value.commands == 0
  {
    match ParseArgs(opts)
    case Exit(c) => Exit(c)
    case Accept(st) =>
      var cfg := ConfigOf(st);
      AlertsOnlyFromAlarms(cfg, Init(cfg, start), tr);
      Accept(Run(cfg, Init(cfg, start), tr))
  }

  /** `-t 0` is accepted (main.c:402-414) and yields a daemon that, however
      idle and operator events fall, never shows a notification, as long as
      every SIGALRM it receives comes from its own alarm when due: the only
      way left to make it notify is a SIGALRM sent by another process. */
  lemma ZeroIntervalNeverNotifies(start: nat, tr: seq<Timed>)
    requires Timely(Config(0, false), Init(Config(0, false), start), tr)
    ensures Launch([Interval(0)], start, tr).Accept?
    ensures Launch([Interval(0)], start, tr).value.alerts == 0
  {
    var st := DEFAULTS.(alarmSeconds := 0);
    assert ParseArgs([Interval(0)]) == Accept(st);
    assert ConfigOf(st) == Config(0, false);
    ZeroIntervalNeverAlerts(Config(0, false), Init(Config(0, false), start), tr);
  }

  /** With `-t 0`, a SIGALRM from another process while idle credit is held
      re-arms for the credit (main.c:216-218), not for `alarm_seconds`. That
      alarm then arrives on time and shows a notification. Idle from 10 to
      20, a foreign SIGALRM at 30 arms the alarm for 40. */
  lemma ForeignAlarmWithCreditNotifies()
    ensures var tr := [Timed(Idled, 10), Timed(Resumed, 20), Timed(Sig(SigAlrm), 30)];
      var cfg := Config(0, false);
      && Run(cfg, Init(cfg, 0), tr).timer == Armed(40)
      && Timely(cfg, Run(cfg, Init(cfg, 0), tr), [Timed(Sig(SigAlrm), 40)])
    ensures var tr := [Timed(Idled, 10), Timed(Resumed, 20), Timed(Sig(SigAlrm), 30), Timed(Sig(SigAlrm), 40)];
      && Launch([Interval(0)], 0, tr).Accept?
      && Launch([Interval(0)], 0, tr).value.alerts == 1
  {
  }

  /** With the default thirty-minute interval and no events at all but the
      first alarm, the first notification comes `DEFAULT_ALARM_SECONDS` after
      the loop was entered. */
  lemma DefaultFirstNotification(start: nat)
    ensures var tr := [Timed(Sig(SigAlrm), start + DEFAULT_ALARM_SECONDS)];
      && Launch([], start, []).Accept?
      && Fires(Launch([], start, []).value.timer, start + DEFAULT_ALARM_SECONDS)
      && Launch([], start, tr).Accept?
      && Launch([], start, tr).value.alerts == 1
  {
    var cfg := ConfigOf(DEFAULTS);
    var tr := [Timed(Sig(SigAlrm), start + DEFAULT_ALARM_SECONDS)];
    assert ParseArgs([]) == Accept(DEFAULTS);
    assert tr[1..] == [];
    assert Run(cfg, Init(cfg, start), tr) == Step(cfg, Init(cfg, start), tr[0]);
  }
}

=== FILE: log.dfy ===
/** Level filtering of the logger: `pme_log_init` and the checks of `_pme_log`
    (main.c:136-161), over the levels of `enum log_level` (log.h:8-14). The
    time prefix, colours on a terminal and the message text are output only. */
module Log {
  import opened CTypes

  /** `enum log_level` (log.h:8-14). The enum has no negative member, so the
      compiler gives it an unsigned representation. */
  const LOG_SILENT: uint := 0
  const LOG_ERROR: uint := 1
  const LOG_INFO: uint := 2
  const LOG_DEBUG: uint := 3
  const LOG_LEVEL_LAST: uint := 4

  /** `curr_log_level` before any `-d` option (main.c:30). */
  const DEFAULT_LEVEL: uint := LOG_INFO

  /** `verbosity_colors` (main.c:24-29): one escape sequence per real level. */
  const COLORS: seq<string> := ["", "\U{1B}[1;31m", "\U{1B}[1;34m", "\U{1B}[1;30m"]

  /** `pme_log_init(verbosity)`: adopts the requested level only when it is a
      real level, and keeps the current one otherwise. */
  function InitLevel(current: uint, verbosity: uint): (r: uint)
    ensures verbosity < LOG_LEVEL_LAST ==> r == verbosity
    ensures verbosity >= LOG_LEVEL_LAST ==> r == current
    ensures current < LOG_LEVEL_LAST ==> r < LOG_LEVEL_LAST
  {
    if verbosity < LOG_LEVEL_LAST then verbosity else current
  }

  /** The colour table slot `_pme_log` uses: the level itself, clamped to the
      last real level, so the table lookup is always in bounds. */
  function ColorIndex(verbosity: uint): (c: nat)
    ensures c < |COLORS|
    ensures c <= verbosity
    ensures verbosity < LOG_LEVEL_LAST ==> c == verbosity
    ensures verbosity >= LOG_LEVEL_LAST ==> c == LOG_LEVEL_LAST - 1
  {
    if verbosity < LOG_LEVEL_LAST then verbosity else LOG_LEVEL_LAST - 1
  }

  /** What `_pme_log(verbosity, ...)` writes, reduced to its decision: nothing
      when the message is more verbose than the current level, otherwise a
      line in the colour of `ColorIndex(verbosity)`. */
  function Emit(current: uint, verbosity: uint): (r: Option<string>)
    ensures r.Some? <==> verbosity <= current
    ensures r.Some? ==> r.value == COLORS[ColorIndex(verbosity)]
  {
    if verbosity > current then None else Some(COLORS[ColorIndex(verbosity)])
  }

  /** The level after a sequence of `pme_log_init` calls. */
  function InitAll(current: uint, requests: seq<uint>): uint
    decreases |requests|
  {
    if requests == [] then current else InitAll(InitLevel(current, requests[0]), requests[1..])
  }

  /** Starting from a real level, no sequence of `pme_log_init` calls leaves
      the logger at a level outside `enum log_level`, and the level reached is
      the last real level requested, if any. */
  lemma {:induction false} InitAllStaysValid(current: uint, requests: seq<uint>)
    requires current < LOG_LEVEL_LAST
    ensures InitAll(current, requests) < LOG_LEVEL_LAST
    ensures (forall i :: 0 <= i < |requests| ==> requests[i] >= LOG_LEVEL_LAST)
            ==> InitAll(current, requests) == current
    ensures forall i :: 0 <= i < |requests| && requests[i] < LOG_LEVEL_LAST
                        && (forall j :: i < j < |requests| ==> requests[j] >= LOG_LEVEL_LAST)
                        ==> InitAll(current, requests) == requests[i]
    decreases |requests|
  {
    if requests != [] {
      var rest := requests[1..];
      var next := InitLevel(current, requests[0]);
      InitAllStaysValid(next, rest);
      if forall i :: 0 <= i < |requests| ==> requests[i] >= LOG_LEVEL_LAST {
        assert requests[0] >= LOG_LEVEL_LAST;
        assert forall i :: 0 <= i < |rest| ==> rest[i] == requests[i + 1];
      }
      forall i | 0 <= i < |requests| && requests[i] < LOG_LEVEL_LAST
                 && (forall j :: i < j < |requests| ==> requests[j] >= LOG_LEVEL_LAST)
        ensures InitAll(current, requests) == requests[i]
      {
        if i == 0 {
          assert forall k :: 0 <= k < |rest| ==> rest[k] == requests[k + 1];
          assert next == requests[0];
        } else {
          assert rest[i - 1] == requests[i];
          assert forall j :: i - 1 < j < |rest| ==> rest[j] == requests[j + 1];
        }
      }
    }
  }

  /** The filter is a threshold: what a level emits, every less verbose
      level emits too, and raising the level never hides a message. The
      default level hides debug messages and `-d` (main.c:448-450) shows
      them. */
  lemma FilterIsThreshold(current: uint, current': uint, v: uint, w: uint)
    ensures Emit(current, v).Some? && w <= v ==> Emit(current, w).Some?
    ensures current <= current' && Emit(current, v).Some? ==> Emit(current', v).Some?
    ensures Emit(DEFAULT_LEVEL, LOG_DEBUG).None?
    ensures Emit(InitLevel(DEFAULT_LEVEL, LOG_DEBUG), LOG_DEBUG).Some?
  {
  }
}

=== FILE: seat.dfy ===
/** Choice of the monitored seat (main.c:242-254 and 329-334). Seats are
    announced by the compositor one by one and each is inserted at the head of
    the `seats` list; the selection loop walks the list from its head and keeps
    the last seat that matches the requested name (any seat when no name was
    given). */
module Seat {
  import opened CTypes

  /** A `struct seat`: the name the compositor reported and its proxy. */
  datatype SeatInfo = SeatInfo(name: string, proxy: nat)

  /** `seat_name == NULL || strcmp(seat_i->name, seat_name) == 0`. */
  predicate Matches(s: SeatInfo, wanted: Option<string>)
  {
    wanted.None? || s.name == wanted.value
  }

  /** `wl_list_insert(&seats, &s->link)` for each announced seat in turn
      (main.c:253). The list ends up in reverse announcement order. */
  function Announce(list: seq<SeatInfo>, found: seq<SeatInfo>): (r: seq<SeatInfo>)
    ensures |r| == |found| + |list|
    ensures forall i :: 0 <= i < |found| ==> r[i] == found[|found| - 1 - i]
    ensures r[|found|..] == list
    decreases |found|
  {
    if found == [] then list else Announce([found[0]] + list, found[1..])
  }

  /** Reference definition: the last matching seat of a list, if any. */
  function LastMatch(list: seq<SeatInfo>, wanted: Option<string>): (r: Option<SeatInfo>)
    ensures r.None? <==> forall i :: 0 <= i < |list| ==> !Matches(list[i], wanted)
    ensures r.Some? ==> Matches(r.value, wanted) && r.value in list
    decreases |list|
  {
    if list == [] then None
    else if Matches(list[|list| - 1], wanted) then Some(list[|list| - 1])
    else LastMatch(list[..|list| - 1], wanted)
  }

  /** Reference definition: the first matching seat of a sequence, if any. */
  function FirstMatch(found: seq<SeatInfo>, wanted: Option<string>): (r: Option<SeatInfo>)
    ensures r.None? <==> forall i :: 0 <= i < |found| ==> !Matches(found[i], wanted)
    ensures r.Some? ==> Matches(r.value, wanted) && r.value in found
    decreases |found|
  {
    if found == [] then None
    else if Matches(found[0], wanted) then Some(found[0])
    else FirstMatch(found[1..], wanted)
  }

  /** The `wl_list_for_each` loop of main.c:329-334: every matching seat
      overwrites the one chosen before it. */
  method SelectSeat(list: seq<SeatInfo>, wanted: Option<string>) returns (r: Option<SeatInfo>)
    ensures r == LastMatch(list, wanted)
  {
    r := None;
    var i := 0;
    while i < |list|
      invariant 0 <= i <= |list|
      invariant r == LastMatch(list[..i], wanted)
    {
      assert list[..i + 1][..i] == list[..i];
      if Matches(list[i], wanted) {
        r := Some(list[i]);
      }
      i := i + 1;
    }
    assert list[..i] == list;
  }

  /** Because discovery prepends and selection keeps the last match, the seat
      chosen is the first matching seat the compositor announced. */
  lemma {:induction false} SelectsFirstAnnounced(found: seq<SeatInfo>, wanted: Option<string>)
    ensures LastMatch(Announce([], found), wanted) == FirstMatch(found, wanted)
    decreases |found|
  {
    if found != [] {
      var all := Announce([], found);
      var tail := Announce([], found[1..]);
      assert all == tail + [found[0]] by {
        forall i | 0 <= i < |all|
          ensures all[i] == (tail + [found[0]])[i]
        {
          if i < |tail| {
            assert found[1..][|found| - 2 - i] == found[|found| - 1 - i];
          }
        }
      }
      assert all[..|all| - 1] == tail;
      SelectsFirstAnnounced(found[1..], wanted);
    }
  }
}

=== FILE: trace.dfy ===
/** Runs of the coordinator over a sequence of timestamped events. The event
    loop (main.c:365-367) dispatches one handler at a time, each to
    completion, so a run is a left fold of the handlers over the events. */
module Trace {
  import opened CTypes
  import opened Alarm
  import opened Coordinator

  /** The signals registered with the event loop (main.c:310-314). */
  datatype Signal = SigInt | SigTerm | SigUsr1 | SigUsr2 | SigAlrm

  /** An idle-notification event from the compositor, or a signal. */
  datatype Event = Idled | Resumed | Sig(signal: Signal)

  /** An event together with the clock reading when its handler runs. */
  datatype Timed = Timed(ev: Event, at: nat)

  /** Dispatch of one event (`handle_idled`, `handle_resumed`,
      `handle_signal`). A notification is produced exactly when a SIGALRM
      reaches a running process holding no credit. */
  function Step(cfg: Config, s: State, e: Timed): (r: State)
    ensures r.alerts == s.alerts || r.alerts == s.alerts + 1
    ensures r.alerts == s.alerts + 1 <==> s.running && e.ev == Sig(SigAlrm) && s.timeLeft == 0
    ensures r.commands == s.commands + (if cfg.hasCommand && r.alerts != s.alerts then 1 else 0)
    ensures !s.running ==> r == s
  {
    if !s.running then s
    else
      match e.ev
      case Idled => OnIdled(s, e.at)
      case Resumed => OnResumed(s, e.at)
      case Sig(SigUsr1) => OnReset(cfg, s, e.at)
      case Sig(SigUsr2) => OnToggleInhibit(cfg, s, e.at)
      case Sig(SigAlrm) => OnAlarm(cfg, s, e.at)
      case Sig(SigInt) | Sig(SigTerm) => OnTerminate(s)
  }

  /** The event loop (main.c:365-367) over a trace. Notifications are never
      taken back, a terminated process never comes back, and only SIGUSR2
      changes whether the process is inhibited. */
  function Run(cfg: Config, s: State, tr: seq<Timed>): (r: State)
    ensures r.alerts >= s.alerts && r.commands >= s.commands
    ensures r.running ==> s.running
    ensures (forall i :: 0 <= i < |tr| ==> tr[i].ev != Sig(SigUsr2)) ==> r.inhibited == s.inhibited
    decreases |tr|
  {
    if tr == [] then s else Run(cfg, Step(cfg, s, tr[0]), tr[1..])
  }

  /** Number of SIGALRM deliveries in a trace. */
  function CountAlarms(tr: seq<Timed>): nat
    decreases |tr|
  {
    if tr == [] then 0
    else (if tr[0].ev == Sig(SigAlrm) then 1 else 0) + CountAlarms(tr[1..])
  }

  /** The trace holds no operator signal SIGUSR1 or SIGUSR2. */
  predicate NoOperator(tr: seq<Timed>)
  {
    forall i :: 0 <= i < |tr| ==> tr[i].ev != Sig(SigUsr1) && tr[i].ev != Sig(SigUsr2)
  }

  /** Every SIGALRM of the trace is dispatched at the moment its alarm is due,
      with that alarm still pending when the handler runs. This rules out a
      SIGALRM sent by another process, and also one the kernel generated at
      the deadline but that was dispatched only after another handler had
      cancelled or replaced the alarm (see `AlarmRacesInhibit`). The deadline
      of an alarm is kept on the `time(NULL)` clock, whereas `alarm()` counts
      elapsed seconds; a run across a step of the wall clock, whose SIGALRM
      comes when `time(NULL)` no longer reads the deadline, is not `Timely`. */
  predicate Timely(cfg: Config, s: State, tr: seq<Timed>)
    decreases |tr|
  {
    tr == [] ||
    ((tr[0].ev == Sig(SigAlrm) ==> Fires(s.timer, tr[0].at))
     && Timely(cfg, Step(cfg, s, tr[0]), tr[1..]))
  }

  /** Runs compose: running `a + b` is running `a`, then `b`. */
  lemma {:induction false} RunAppend(cfg: Config, s: State, a: seq<Timed>, b: seq<Timed>)
    ensures Run(cfg, s, a + b) == Run(cfg, Run(cfg, s, a), b)
    decreases |a|
  {
    if a != [] {
      assert (a + b)[0] == a[0];
      assert (a + b)[1..] == a[1..] + b;
      RunAppend(cfg, Step(cfg, s, a[0]), a[1..], b);
    } else {
      assert a + b == b;
    }
  }

  /** Notifications come only from SIGALRM: a run never loses one and adds at
      most one per SIGALRM it contains; every on-timeout command accompanies a
      notification, and every notification runs the command when one is
      configured. */
  lemma {:induction false} AlertsOnlyFromAlarms(cfg: Config, s: State, tr: seq<Timed>)
    ensures s.alerts <= Run(cfg, s, tr).alerts <= s.alerts + CountAlarms(tr)
    ensures Run(cfg, s, tr).commands - s.commands
            == if cfg.hasCommand then Run(cfg, s, tr).alerts - s.alerts else 0
    decreases |tr|
  {
    if tr != [] {
      AlertsOnlyFromAlarms(cfg, Step(cfg, s, tr[0]), tr[1..]);
    }
  }

  /** After SIGINT or SIGTERM nothing changes any more. */
  lemma {:induction false} TerminationIsFinal(cfg: Config, s: State, tr: seq<Timed>)
    requires !s.running
    ensures Run(cfg, s, tr) == s
    decreases |tr|
  {
    if tr != [] {
      TerminationIsFinal(cfg, Step(cfg, s, tr[0]), tr[1..]);
    }
  }

  /** While inhibited, and as long as no operator signal arrives, no alarm is
      pending, so no notification is ever shown, however much time passes and
      whatever idle events arrive. */
  lemma {:induction false} InhibitedStaysQuiet(cfg: Config, s: State, tr: seq<Timed>)
    requires s.inhibited && s.timer == Disarmed
    requires NoOperator(tr) && Timely(cfg, s, tr)
    ensures Run(cfg, s, tr).alerts == s.alerts
    ensures Run(cfg, s, tr).inhibited && Run(cfg, s, tr).timer == Disarmed
    decreases |tr|
  {
    if tr != [] {
      assert tr[0].ev != Sig(SigUsr1) && tr[0].ev != Sig(SigUsr2);
      var s1 := Step(cfg, s, tr[0]);
      assert NoOperator(tr[1..]) by {
        forall i | 0 <= i < |tr| - 1
          ensures tr[1..][i].ev != Sig(SigUsr1) && tr[1..][i].ev != Sig(SigUsr2)
        {
          assert tr[1..][i] == tr[i + 1];
        }
      }
      InhibitedStaysQuiet(cfg, s1, tr[1..]);
    }
  }

  /** With `alarm_seconds == 0` (accepted by the option parser,
      main.c:402-414) every arming of `alarm_seconds` cancels instead, so once
      nothing is pending no notification is ever shown again. */
  lemma {:induction false} ZeroIntervalNeverAlerts(cfg: Config, s: State, tr: seq<Timed>)
    requires cfg.alarmSeconds == 0 && s.timer == Disarmed
    requires Timely(cfg, s, tr)
    ensures Run(cfg, s, tr).alerts == s.alerts
    ensures Run(cfg, s, tr).timer == Disarmed
    decreases |tr|
  {
    if tr != [] {
      ZeroIntervalNeverAlerts(cfg, Step(cfg, s, tr[0]), tr[1..]);
    }
  }

  /** Two SIGUSR2 in a row starting un-inhibited: the process ends
      un-inhibited, with no credit, the idle timestamp restarted and a fresh
      `alarm_seconds` alarm (none with `-t 0`); any credit held before is
      lost. */
  lemma DoubleToggle(cfg: Config, s: State, t1: nat, t2: nat)
    requires s.running && !s.inhibited
    ensures var r := Run(cfg, s, [Timed(Sig(SigUsr2), t1), Timed(Sig(SigUsr2), t2)]);
      && !r.inhibited && r.timeLeft == 0 && r.idleTs == t2
      && r.timer == Register(Disarmed, t2, cfg.alarmSeconds)
      && r.alerts == s.alerts
  {
    var tr := [Timed(Sig(SigUsr2), t1), Timed(Sig(SigUsr2), t2)];
    var s1 := Step(cfg, s, tr[0]);
    assert tr[1..] == [tr[1]];
    assert Run(cfg, s, tr) == Run(cfg, s1, [tr[1]]);
    assert s1.inhibited;
  }

  /** A credit is paid back once: a SIGALRM arriving with credit shows nothing
      and re-arms for exactly the credit, and the next SIGALRM, with no resume
      in between, shows the notification. */
  lemma CreditPaidOnce(cfg: Config, s: State, t1: nat, t2: nat)
    requires s.running && s.timeLeft > 0
    ensures var r1 := Run(cfg, s, [Timed(Sig(SigAlrm), t1)]);
      r1.alerts == s.alerts && r1.timer == Armed(t1 + s.timeLeft) && r1.timeLeft == 0
    ensures Run(cfg, s, [Timed(Sig(SigAlrm), t1), Timed(Sig(SigAlrm), t2)]).alerts == s.alerts + 1
  {
    var a1 := Timed(Sig(SigAlrm), t1);
    var a2 := Timed(Sig(SigAlrm), t2);
    RunAppend(cfg, s, [a1], [a2]);
    assert [a1] + [a2] == [a1, a2];
  }

  /** `alarm(0)` in the SIGUSR2 handler cannot withdraw a SIGALRM the kernel
      has already generated. When SIGUSR2 and the due alarm arrive in the same
      instant and SIGUSR2 is dispatched first, the SIGALRM handler still runs:
      the process ends inhibited, yet has shown a notification and armed a
      new alarm. Such a trace is not `Timely`, which is why
      `InhibitedStaysQuiet` does not cover it. The pause is then ineffective:
      the new alarm, delivered on time, notifies again while inhibited, every
      `alarm_seconds`. The next SIGUSR2 does not stop this: `inhibited` is
      already set, so it takes the un-pause branch and re-arms; only a second
      SIGUSR2 pauses again. */
  lemma AlarmRacesInhibit(cfg: Config, s: State, d: nat)
    requires s.running && !s.inhibited && s.timeLeft == 0
    requires s.timer == Armed(d) && cfg.alarmSeconds > 0
    ensures var r := Run(cfg, s, [Timed(Sig(SigUsr2), d), Timed(Sig(SigAlrm), d)]);
      && r.inhibited && r.alerts == s.alerts + 1
      && r.timer == Armed(d + cfg.alarmSeconds)
    ensures !Timely(cfg, s, [Timed(Sig(SigUsr2), d), Timed(Sig(SigAlrm), d)])
    ensures var r := Run(cfg, s, [Timed(Sig(SigUsr2), d), Timed(Sig(SigAlrm), d)]);
      var next := [Timed(Sig(SigAlrm), d + cfg.alarmSeconds)];
      && Timely(cfg, r, next)
      && Run(cfg, r, next).inhibited && Run(cfg, r, next).alerts == s.alerts + 2
      && Run(cfg, r, next).timer == Armed(d + 2 * cfg.alarmSeconds)
  {
    var u := Timed(Sig(SigUsr2), d);
    var a := Timed(Sig(SigAlrm), d);
    RunAppend(cfg, s, [u], [a]);
    assert [u] + [a] == [u, a];
    assert [u, a][1..] == [a];
    var r := Run(cfg, s, [u, a]);
    var next := [Timed(Sig(SigAlrm), d + cfg.alarmSeconds)];
    assert next[1..] == [];
    assert Run(cfg, r, next) == Step(cfg, r, next[0]);
  }

  /** SIGUSR1 while inhibited leaves the process inhibited but arms a fresh
      countdown, which can later produce a notification. */
  lemma ResetWhileInhibitedArms(cfg: Config, s: State, now: nat)
    requires s.running && s.inhibited && cfg.alarmSeconds > 0
    ensures var r := Run(cfg, s, [Timed(Sig(SigUsr1), now)]);
      r.inhibited && r.timer == Armed(now + cfg.alarmSeconds)
    ensures var r := Run(cfg, s, [Timed(Sig(SigUsr1), now), Timed(Sig(SigAlrm), now + cfg.alarmSeconds)]);
      r.inhibited && r.alerts == s.alerts + 1
  {
    var u := Timed(Sig(SigUsr1), now);
    var a := Timed(Sig(SigAlrm), now + cfg.alarmSeconds);
    RunAppend(cfg, s, [u], [a]);
    assert [u] + [a] == [u, a];
  }
}
